=== FILE: README.md ===
# Dual-token authentication and posts of a small Express service

This project models, in Dafny, the route module `routes/index.js` of a minimal
content-posting service. Users sign up and log in; the server answers with two
JSON Web Tokens carried in http-only cookies, a short-lived `access_token` and a
longer-lived `refresh_token`. The middleware guarding `/me` and `POST /posts`
accepts a live access token as is. When the access token is missing or has
expired, it silently mints a new access token from a genuine refresh token.
Otherwise it answers 401, clearing both cookies when renewal was attempted and failed.
Posts are kept newest first and listed with a 60-character preview.

Modules, leaf first:

- `Base` (`base.dfy`): `Option`, JavaScript truthiness of a request string
  (present and non-empty), and the first-match search of `Array.prototype.find`.
- `Decimal` (`decimal.dfy`): decimal printing of the counter in `user-<n>` ids.
- `Records` (`records.dfy`): users, posts, summaries and request bodies.
- `Tokens` (`tokens.dfy`): the token library as an oracle. `sign(domain, sub, t)`
  issues a token. `verify(domain, token, t)` answers `Valid(sub)`, `Expired`
  or `Invalid`.
- `Cookies` (`cookies.dfy`): cookie effects (set / clear), `setAuthCookies`,
  and the client jar that applies a response's effects.
- `Http` (`http.dfy`): a reply is a status, a body and cookie effects.
- `Users` (`users.dfy`): lookups by id and email, the seeded account, and the
  invariant the user array keeps (id `user-<i+1>` at position i, distinct emails).
- `Auth` (`auth.dfy`): `authMiddleware` as the pure function `Authenticate`, and
  one lemma per branch.
- `Session` (`session.dfy`): signup, login, logout and `/me`.
- `Posts` (`posts.dfy`): creating and listing posts.
- `Protocol` (`protocol.dfy`): properties across requests. The client applies
  each reply's effects to its jar, and the next request is judged at a later
  instant.

The global arrays and the post counter are passed and returned as values:
`seq<User>` and `Board(posts, nextId)`. The clock is an explicit `Instant`
parameter. Token verification depends on it only through the oracle.

The middleware has a single, mandatory mode; the route module has no refresh
endpoint.

## Model

| member | source | states |
|---|---|---|
| Base.FindFirst | routes/index.js:93 | the index returned is the first element matching the predicate; none is returned exactly when no element matches |
| Decimal.ToDecimal | routes/index.js:148 | the printed counter is a non-empty string of decimal digits that denotes the counter, with no leading zero, and has at least two digits exactly from 10 on |
| Decimal.ToDecimalInjective | routes/index.js:148 | distinct counters print to distinct strings |
| Cookies.SetAuthCookies | routes/index.js:43-60 | a fresh pair is two effects: the access cookie first, then the refresh cookie |
| Cookies.Apply | routes/index.js:47-59 | after a response, a cookie no effect names keeps its value, and for every cookie an effect names, the last such effect decides its value |
| Cookies.ClearBothEmpties | routes/index.js:113-114 | clearing both cookies leaves the client with no cookie, whatever it held |
| Cookies.SetAuthCookiesInstalls | routes/index.js:43-60 | after a fresh pair is set, the client holds exactly the new access and refresh tokens |
| Users.Find | routes/index.js:142 | a lookup by id or by email (also lines 93, 171, 182 and 217) yields the first account of the store matching the key exactly, and none exactly when no account matches |
| Users.SeedWellFormed | routes/index.js:10-17 | the seeded store has sequential ids and distinct emails |
| Users.IdForInjective | routes/index.js:148 | two accounts get the same `user-<n>` id only for the same n |
| Users.DistinctIds | routes/index.js:147-154 | in a store with sequential ids, no two accounts share an id |
| Users.NextIdFresh | routes/index.js:147-148 | the id signup hands out next is not yet taken |
| Users.FindByEmailUnique | routes/index.js:171 | with distinct emails, the lookup by an account's email finds that account |
| Auth.Authenticate | routes/index.js:65-117 | a request proceeds for uid only if its access token verifies for uid, or the access token is absent or expired and a genuine refresh token names an existing uid; it always proceeds in that case; the only effects are none, clearing both cookies on a rejection, or setting the access cookie to a token freshly signed for the uid let through |
| Auth.NoCookies | routes/index.js:69-71 | with neither cookie truthy the answer is 401 "No token" and no cookie is touched |
| Auth.AccessFastPath | routes/index.js:73-77 | a verifying access cookie lets the request through for its subject with no cookie written, whatever the refresh cookie and the user store hold |
| Auth.ForgedAccess | routes/index.js:78-81 | an access cookie failing for a reason other than expiry gives 401 "Invalid token"; the refresh cookie and store are not examined and nothing is cleared |
| Auth.StaleWithoutRefresh | routes/index.js:85-87 | an expired access cookie without a refresh cookie gives 401 "No refresh token" with no cookie effects |
| Auth.SilentRenewal | routes/index.js:89-111 | a genuine refresh token for an existing account lets the request through for it and sets only the access cookie, to a freshly signed token; the refresh cookie stays as it was |
| Auth.BadRefresh | routes/index.js:112-116 | a refresh token that is expired or invalid clears both cookies and gives 401 "Invalid refresh token" |
| Auth.RefreshForUnknownUser | routes/index.js:93-100 | a genuine refresh token whose subject has no account clears both cookies and gives 401 |
| Auth.ClearsExactlyWhenRenewalFails | routes/index.js:94-116 | both cookies are cleared if and only if renewal was attempted and the refresh token or its account failed |
| Auth.StoreOnlyMattersForRenewal | routes/index.js:73-93 | the user store influences the outcome only when the access token is unusable and the refresh token verifies |
| Auth.RefreshCookieNeverSet | routes/index.js:102-108 | the middleware leaves the refresh cookie as it was or clears it; it never writes it |
| Session.Signup | routes/index.js:133-161 | a missing field gives 400 with the missing-fields message and an existing email 409 with the duplicate-email message, both with the store unchanged and no cookies; otherwise the store grows by exactly one account `user-<old length+1>` after the unchanged old ones, the reply is 201 with its projection, and both cookies are set for it |
| Session.Login | routes/index.js:164-178 | a missing field gives 400 with its message; a success answers `{ok: true}` and sets both cookies for the first account with that email, which has that password; a 401 "Invalid credentials" means the first account with that email is missing or has another password; failures set no cookie |
| Session.Logout | routes/index.js:189-193 | logout always answers 200 `{ok: true}` and clears both cookies |
| Session.Me | routes/index.js:182-185 | the profile of the first account with the id is returned with 200 exactly when an account has the id, otherwise 404 "User not found"; no cookie is touched |
| Session.MeRoute | routes/index.js:181-186 | `/me` answers 401 exactly when the middleware rejects, with the middleware's message as body; a 200 shows the profile of an authentic uid; the middleware's cookie effects travel with the reply; a request let through gets the handler's status and body, so a live access token whose account is gone gets 404 |
| Session.SignupPreservesWellFormed | routes/index.js:142-154 | signup keeps ids sequential and emails distinct, and the id it hands out was free |
| Session.SignupThenLogin | routes/index.js:147-176 | right after signing up, logging in with the same email and password succeeds and sets tokens for the new id |
| Session.LoginSucceedsIff | routes/index.js:171-177 | on a store with distinct emails, login succeeds if and only if some account has both the email and the password |
| Session.MeWithLiveAccessToken | routes/index.js:181-185 | a live access token for an existing account is served its profile with no cookie change |
| Posts.EmptyBoardWellFormed | routes/index.js:19-20 | the initial board (no posts, counter 1) is well formed |
| Posts.CreatePost | routes/index.js:197-211 | a missing title or content gives 400 with its message and posts and counter unchanged; otherwise the new post, numbered by the old counter and authored by the user let through, goes in front of the unchanged old posts and the counter grows by one |
| Posts.CreatePreservesWellFormed | routes/index.js:202-210 | creating a post keeps ids positive, below the counter and strictly decreasing from newest to oldest; the new id exceeds every old one |
| Posts.PostRoute | routes/index.js:196-212 | a rejected request answers 401 with the middleware's message and the board unchanged; a request let through gets the handler's board, status and body, so a missing field answers 400 with posts and counter unchanged; a created post's author is an authentic uid; the middleware's cookie effects travel with the reply |
| Posts.Preview | routes/index.js:221-224 | a preview is the content when it has at most 60 characters, otherwise its first 60 characters followed by "...", so never longer than 63 |
| Posts.AuthorName | routes/index.js:217-225 | the author shown is the account's name when it exists and is non-empty, otherwise the placeholder; it is never empty |
| Posts.ListPosts | routes/index.js:215-231 | the listing has one summary per post in the same order, with the same id, title and time stamp, the preview of its content and its author's name |
| Posts.ListingNewestFirst | routes/index.js:210-216 | the listing of a well-formed board has strictly decreasing ids |
| Posts.ListPostsCons | routes/index.js:216-228 | listing a board with one more post in front lists that post's summary first, then the rest of the board's listing |
| Posts.CreateThenList | routes/index.js:210-228 | after a post is created, the listing is its summary followed by the earlier listing |
| Posts.ListRoute | routes/index.js:215-231 | `GET /posts` needs no authentication and always answers 200 with one summary per post in board order and no cookie effects |
| Protocol.LoginThenFastPath | routes/index.js:171-177 | after a successful login the client holds the new pair, and while the access token is live it is let through on the fast path with no cookie change |
| Protocol.RenewalThenFastPath | routes/index.js:102-111 | after a silent renewal the refresh cookie is unchanged and the next request with a live new access token takes the fast path for the same account |
| Protocol.ClearedSessionStaysOut | routes/index.js:112-116 | after the middleware clears the cookies, the next request is refused with "No token" |
| Protocol.LogoutForgets | routes/index.js:189-193 | after logout the client holds no cookie and its next request is refused with "No token" |
| Protocol.SwappedTokenRefused | routes/index.js:75-81 | a refresh token sent as the access cookie is refused with "Invalid token" when the library keeps the domains apart |
| Protocol.SessionLifetime | routes/index.js:164-186 | log in as the seeded account; after access expiry `/me` answers 200 for it and replaces only the access cookie; after refresh expiry `/me` answers 401 and both cookies are gone |

## Left out

- JSON Web Token signing and verification: the secrets, the 5-second and 10-second lifetimes and the clock comparison belong to the `jsonwebtoken` library. They are the `Codec` oracle. Its round trip and domain separation appear only as premises of the lemmas that need them.
- A token's payload without a `sub` claim: the oracle's `Valid` always carries a subject.
- Exceptions thrown by route handlers: the handlers here are pure functions that always return a reply.
- Express plumbing: `router`, the request and response objects, and response shaping beyond status, body and cookie effects.
- Cookie attributes (`httpOnly`, `secure`, `sameSite`, `path`): effects carry only the cookie's name and value.
- Request fields and cookies of types other than string: a field is a missing value or a string. Truthiness is modelled for strings only.
- `GET /`: it returns a constant greeting.
- `createdAt`: the wall-clock time stamp is a string parameter of post creation.
- Posts.Preview: lengths are counted in Unicode scalar values, while JavaScript counts UTF-16 code units. Content outside the Basic Multilingual Plane would be cut at a different point.
- The post counter is an unbounded natural; a JavaScript number loses integer precision beyond 2^53.
- Concurrency: requests are handled one at a time, each as a function of the store it sees.

=== FILE: auth.dfy ===
/** The authentication middleware guarding `/me` and `POST /posts`. It reads
    the access and refresh cookies and either lets the request through for a
    user id, or answers 401 with a message; along the way it may replace the
    access cookie (silent renewal) or clear both cookies. */
module Auth {
  import opened Base
  import opened Records
  import opened Tokens
  import opened Cookies
  import opened Users
  import opened Http

  datatype Decision = Proceed(userId: UserId) | Unauthorized(message: string)

  /** The middleware's verdict together with the cookie effects it made. */
  datatype Outcome = Outcome(decision: Decision, effects: seq<Effect>)

  const NoToken: string := "No token"
  const InvalidToken: string := "Invalid token"
  const NoRefreshToken: string := "No refresh token"
  const UnknownRefreshUser: string := "User not found for refresh token"
  const InvalidRefreshToken: string := "Invalid refresh token"

  /** The access cookie is present and verifies, for subject `uid`. */
  predicate AccessAccepted(codec: Codec, now: Instant, jar: Jar, uid: UserId) {
    Truthy(jar.access) && codec.verify(Access, jar.access.value, now) == Valid(uid)
  }

  /** The access cookie is present but fails for a reason other than expiry. */
  predicate AccessForged(codec: Codec, now: Instant, jar: Jar) {
    Truthy(jar.access) && codec.verify(Access, jar.access.value, now).Invalid?
  }

  /** The access cookie cannot be used but renewal may be tried: it is
      missing, or it is genuine and has expired. */
  predicate AccessStale(codec: Codec, now: Instant, jar: Jar) {
    !Truthy(jar.access) || codec.verify(Access, jar.access.value, now).Expired?
  }

  /** The refresh cookie is present and verifies, for subject `uid`. */
  predicate RefreshAccepted(codec: Codec, now: Instant, jar: Jar, uid: UserId) {
    Truthy(jar.refresh) && codec.verify(Refresh, jar.refresh.value, now) == Valid(uid)
  }

  /** When a request may act as `uid`: its access token says so, or it has
      no usable access token and a genuine refresh token names an account
      that exists. */
  predicate Authentic(codec: Codec, now: Instant, jar: Jar, users: seq<User>, uid: UserId) {
    || AccessAccepted(codec, now, jar, uid)
    || (AccessStale(codec, now, jar) && RefreshAccepted(codec, now, jar, uid) && FindById(users, uid).Some?)
  }

  /** `authMiddleware`, evaluated at time `now`. */
  function Authenticate(codec: Codec, now: Instant, jar: Jar, users: seq<User>): (r: Outcome)
    ensures r.decision.Proceed? ==> Authentic(codec, now, jar, users, r.decision.userId)
    ensures forall uid :: Authentic(codec, now, jar, users, uid) ==> r.decision == Proceed(uid)
    ensures || r.effects == []
            || (r.decision.Unauthorized? && r.effects == ClearBoth)
            || (r.decision.Proceed? && r.effects == [SetCookie(AccessCookie, codec.sign(Access, r.decision.userId, now))])
  {
    if !Truthy(jar.access) && !Truthy(jar.refresh) then
      Outcome(Unauthorized(NoToken), [])
    else if Truthy(jar.access) && codec.verify(Access, jar.access.value, now).Valid? then
      Outcome(Proceed(codec.verify(Access, jar.access.value, now).sub), [])
    else if Truthy(jar.access) && codec.verify(Access, jar.access.value, now).Invalid? then
      Outcome(Unauthorized(InvalidToken), [])
    else if !Truthy(jar.refresh) then
      Outcome(Unauthorized(NoRefreshToken), [])
    else
      match codec.verify(Refresh, jar.refresh.value, now)
      case Valid(uid) =>
        if FindById(users, uid).None? then
          Outcome(Unauthorized(UnknownRefreshUser), ClearBoth)
        else
          Outcome(Proceed(uid), [SetCookie(AccessCookie, codec.sign(Access, uid, now))])
      case _ =>
        Outcome(Unauthorized(InvalidRefreshToken), ClearBoth)
  }

  /** The 401 reply a rejected request receives, carrying the middleware's effects. */
  function Rejection(o: Outcome): Reply
    requires o.decision.Unauthorized?
  {
    Reply(401, Message(o.decision.message), o.effects)
  }

  // ---------------------------------------------------------------------
  // The middleware, branch by branch.

  /** Without either cookie: 401 "No token", no cookie touched. */
  lemma NoCookies(codec: Codec, now: Instant, jar: Jar, users: seq<User>)
    requires !Truthy(jar.access) && !Truthy(jar.refresh)
    ensures Authenticate(codec, now, jar, users) == Outcome(Unauthorized(NoToken), [])
  {
  }

  /** A verifying access cookie is trusted as is: the request proceeds for its
      subject with no cookie written, and neither the refresh cookie nor the
      user store has any influence on the result. */
  lemma AccessFastPath(codec: Codec, now: Instant, jar: Jar, users: seq<User>, uid: UserId,
                       otherRefresh: Option<Token>, otherUsers: seq<User>)
    requires AccessAccepted(codec, now, jar, uid)
    ensures Authenticate(codec, now, jar, users) == Outcome(Proceed(uid), [])
    ensures Authenticate(codec, now, jar.(refresh := otherRefresh), otherUsers) == Outcome(Proceed(uid), [])
  {
  }

  /** A tampered or malformed access cookie is rejected outright: the refresh
      cookie is not examined and no cookie is cleared. */
  lemma ForgedAccess(codec: Codec, now: Instant, jar: Jar, users: seq<User>,
                     otherRefresh: Option<Token>, otherUsers: seq<User>)
    requires AccessForged(codec, now, jar)
    ensures Authenticate(codec, now, jar, users) == Outcome(Unauthorized(InvalidToken), [])
    ensures Authenticate(codec, now, jar.(refresh := otherRefresh), otherUsers) == Outcome(Unauthorized(InvalidToken), [])
  {
  }

  /** An expired access cookie without a refresh cookie: 401 "No refresh
      token", no cookie touched. (With the access cookie missing as well the
      first check already answered "No token".) */
  lemma StaleWithoutRefresh(codec: Codec, now: Instant, jar: Jar, users: seq<User>)
    requires AccessStale(codec, now, jar) && !Truthy(jar.refresh)
    ensures Authenticate(codec, now, jar, users).effects == []
    ensures Authenticate(codec, now, jar, users).decision
         == Unauthorized(if Truthy(jar.access) then NoRefreshToken else NoToken)
  {
  }

  /** Silent renewal: with no usable access token and a genuine refresh token
      for an existing account, the request proceeds for that account and
      exactly one cookie is written, the access cookie, with a token freshly
      signed for it; the refresh cookie is left as it was. */
  lemma SilentRenewal(codec: Codec, now: Instant, jar: Jar, users: seq<User>, uid: UserId)
    requires AccessStale(codec, now, jar)
    requires RefreshAccepted(codec, now, jar, uid)
    requires FindById(users, uid).Some?
    ensures Authenticate(codec, now, jar, users)
         == Outcome(Proceed(uid), [SetCookie(AccessCookie, codec.sign(Access, uid, now))])
    ensures Apply(jar, Authenticate(codec, now, jar, users).effects)
         == jar.(access := Some(codec.sign(Access, uid, now)))
  {
  }

  /** A refresh cookie that does not verify (expired or not): both cookies
      are cleared and the request is rejected. */
  lemma BadRefresh(codec: Codec, now: Instant, jar: Jar, users: seq<User>)
    requires AccessStale(codec, now, jar) && Truthy(jar.refresh)
    requires !codec.verify(Refresh, jar.refresh.value, now).Valid?
    ensures Authenticate(codec, now, jar, users) == Outcome(Unauthorized(InvalidRefreshToken), ClearBoth)
  {
  }

  /** A genuine refresh cookie whose subject has no account: both cookies are
      cleared and the request is rejected. */
  lemma RefreshForUnknownUser(codec: Codec, now: Instant, jar: Jar, users: seq<User>, uid: UserId)
    requires AccessStale(codec, now, jar) && RefreshAccepted(codec, now, jar, uid)
    requires FindById(users, uid).None?
    ensures Authenticate(codec, now, jar, users) == Outcome(Unauthorized(UnknownRefreshUser), ClearBoth)
  {
  }

  /** Both cookies are cleared exactly when renewal was attempted and failed. */
  lemma ClearsExactlyWhenRenewalFails(codec: Codec, now: Instant, jar: Jar, users: seq<User>)
    ensures Authenticate(codec, now, jar, users).effects == ClearBoth
        <==> (&& AccessStale(codec, now, jar) && Truthy(jar.refresh)
              && !(codec.verify(Refresh, jar.refresh.value, now).Valid?
                   && FindById(users, codec.verify(Refresh, jar.refresh.value, now).sub).Some?))
  {
  }

  /** The user store is consulted only on the renewal path: two stores can
      lead to different outcomes only when the access cookie is unusable and
      the refresh cookie verifies. */
  lemma StoreOnlyMattersForRenewal(codec: Codec, now: Instant, jar: Jar, users1: seq<User>, users2: seq<User>)
    requires Authenticate(codec, now, jar, users1) != Authenticate(codec, now, jar, users2)
    ensures AccessStale(codec, now, jar) && Truthy(jar.refresh)
    ensures codec.verify(Refresh, jar.refresh.value, now).Valid?
  {
  }

  /** The middleware never writes the refresh cookie. */
  lemma RefreshCookieNeverSet(codec: Codec, now: Instant, jar: Jar, users: seq<User>)
    ensures Apply(jar, Authenticate(codec, now, jar, users).effects).refresh in {jar.refresh, None}
  {
  }
}

=== FILE: base.dfy ===
/** Shared vocabulary of the model: optional values, the truthiness test the
    route handlers apply to request fields and cookies, and the first-match
    search that `Array.prototype.find` performs over the in-memory arrays. */
module Base {

  /** A value that may be missing (JavaScript `undefined`). */
  datatype Option<+T> = None | Some(value: T)

  /** A string read from a request (a cookie or a JSON field) is truthy in
      JavaScript exactly when it is present and not the empty string. */
  predicate Truthy(v: Option<string>) {
    v.Some? && v.value != ""
  }

  /** Index of the first element of `s` satisfying `p`, scanning from the front. */
  function FindFirst<T>(s: seq<T>, p: T -> bool): (r: Option<nat>)
    ensures r.Some? ==> r.value < |s| && p(s[r.value])
    ensures r.Some? ==> forall j :: 0 <= j < r.value ==> !p(s[j])
    ensures r.None? <==> forall j :: 0 <= j < |s| ==> !p(s[j])
  {
    if |s| == 0 then None
    else if p(s[0]) then Some(0)
    else match FindFirst(s[1..], p)
      case None => None
      case Some(k) => Some(k + 1)
  }
}

=== FILE: cookies.dfy ===
/** The two authentication cookies and the effects a response has on them.
    A response may set a cookie (replacing any earlier value) or clear it;
    the client's cookie jar is the only state that crosses requests. */
module Cookies {
  import opened Base
  import opened Records
  import opened Tokens

  /** The cookies `access_token` and `refresh_token`. */
  datatype CookieName = AccessCookie | RefreshCookie

  datatype Effect = SetCookie(name: CookieName, value: Token) | ClearCookie(name: CookieName)

  /** The cookies a client holds, and so sends with its next request. */
  datatype Jar = Jar(access: Option<Token>, refresh: Option<Token>) {
    function Get(n: CookieName): Option<Token> {
      match n
      case AccessCookie => access
      case RefreshCookie => refresh
    }

    function Put(n: CookieName, v: Option<Token>): (j: Jar)
      ensures j.Get(n) == v
      ensures forall m :: m != n ==> j.Get(m) == Get(m)
    {
      match n
      case AccessCookie => this.(access := v)
      case RefreshCookie => this.(refresh := v)
    }
  }

  const EmptyJar: Jar := Jar(None, None)

  /** Both `clearCookie` calls, access first. */
  const ClearBoth: seq<Effect> := [ClearCookie(AccessCookie), ClearCookie(RefreshCookie)]

  /** `setAuthCookies`: a fresh token pair for `uid`, both set on the response. */
  function SetAuthCookies(codec: Codec, uid: UserId, now: Instant): (effs: seq<Effect>)
    ensures |effs| == 2
    ensures effs[0].name == AccessCookie && effs[1].name == RefreshCookie
  {
    [SetCookie(AccessCookie, codec.sign(Access, uid, now)),
     SetCookie(RefreshCookie, codec.sign(Refresh, uid, now))]
  }

  /** The value a cookie holds after the effect is applied to it. */
  function After(e: Effect): Option<Token> {
    match e
    case SetCookie(_, v) => Some(v)
    case ClearCookie(_) => None
  }

  /** No later effect in `effs` names the cookie `effs[i]` names. */
  predicate LastOnItsCookie(effs: seq<Effect>, i: nat)
    requires i < |effs|
  {
    forall j :: i < j < |effs| ==> effs[j].name != effs[i].name
  }

  /** The client's jar once it has applied a response's effects in order. */
  function Apply(jar: Jar, effs: seq<Effect>): (r: Jar)
    ensures forall n :: (forall i :: 0 <= i < |effs| ==> effs[i].name != n) ==> r.Get(n) == jar.Get(n)
    ensures forall i :: 0 <= i < |effs| && LastOnItsCookie(effs, i) ==> r.Get(effs[i].name) == After(effs[i])
    decreases |effs|
  {
    if |effs| == 0 then jar
    else Apply(jar.Put(effs[0].name, After(effs[0])), effs[1..])
  }

  /** Clearing both cookies forgets the session, whatever the jar held. */
  lemma ClearBothEmpties(jar: Jar)
    ensures Apply(jar, ClearBoth) == EmptyJar
  {
  }

  /** A fresh pair replaces both cookies, whatever the jar held. */
  lemma SetAuthCookiesInstalls(jar: Jar, codec: Codec, uid: UserId, now: Instant)
    ensures Apply(jar, SetAuthCookies(codec, uid, now))
         == Jar(Some(codec.sign(Access, uid, now)), Some(codec.sign(Refresh, uid, now)))
  {
  }
}

=== FILE: decimal.dfy ===
/** Decimal rendering of natural numbers, as a JavaScript template literal
    prints a non-negative integer (no sign, no leading zeros). */
module Decimal {

  function Digit(d: nat): (c: char)
    requires d < 10
    ensures '0' <= c <= '9'
    ensures c as int - '0' as int == d
  {
    (48 + d) as char
  }

  predicate IsDigits(s: string) {
    forall i :: 0 <= i < |s| ==> '0' <= s[i] <= '9'
  }

  /** The number a string of decimal digits denotes, read most significant
      digit first. */
  function DigitsValue(s: string): nat
    requires IsDigits(s)
  {
    if |s| == 0 then 0
    else DigitsValue(s[..|s| - 1]) * 10 + (s[|s| - 1] as int - '0' as int)
  }

  function ToDecimal(n: nat): (s: string)
    ensures |s| >= 1 && IsDigits(s)
    ensures DigitsValue(s) == n
    ensures |s| >= 2 ==> s[0] != '0'
    ensures n >= 10 <==> |s| >= 2
  {
    if n < 10 then [Digit(n)]
    else
      var s := ToDecimal(n / 10) + [Digit(n % 10)];
      assert s[..|s| - 1] == ToDecimal(n / 10);
      s
  }

  /** Distinct numbers print differently. */
  lemma ToDecimalInjective(a: nat, b: nat)
    requires ToDecimal(a) == ToDecimal(b)
    ensures a == b
  {
  }
}

=== FILE: http.dfy ===
/** What a handler sends back: a status code, a JSON body and cookie effects. */
module Http {
  import opened Records
  import opened Cookies

  datatype Body =
    | Message(text: string)
    | Ok
    | SignedUp(user: UserView)
    | Profile(user: UserView)
    | Created(post: Post)
    | Listing(summaries: seq<Summary>)

  datatype Reply = Reply(status: nat, body: Body, effects: seq<Effect>)
}

=== FILE: posts.dfy ===
/** The post board: creating a post (behind the authentication middleware)
    and listing all posts as summaries. The board is the post array, newest
    first, together with the counter that numbers posts. */
module Posts {
  import opened Base
  import opened Records
  import opened Tokens
  import opened Cookies
  import opened Users
  import opened Http
  import opened Auth

  const PostFieldsMissing: string := "title과 content는 필수입니다."
  const UnknownAuthor: string := "알 수 없음"
  const PreviewLimit: nat := 60
  const Ellipsis: string := "..."

  datatype Board = Board(posts: seq<Post>, nextId: nat)

  /** The board the server starts with: no posts, numbering from 1. */
  const EmptyBoard: Board := Board([], 1)

  /** Post ids are positive, below the counter, and strictly decreasing from
      the front (newest) to the back (oldest). */
  ghost predicate BoardWellFormed(b: Board) {
    && b.nextId >= 1
    && (forall i :: 0 <= i < |b.posts| ==> 1 <= b.posts[i].id < b.nextId)
    && (forall i, j :: 0 <= i < j < |b.posts| ==> b.posts[i].id > b.posts[j].id)
  }

  lemma EmptyBoardWellFormed()
    ensures BoardWellFormed(EmptyBoard)
  {
  }

  datatype CreateResult = CreateResult(board: Board, reply: Reply)

  /** The `POST /posts` handler proper, run for the user `author` the
      middleware let through; `createdAt` is the current time stamp. */
  function CreatePost(b: Board, author: UserId, form: PostForm, createdAt: string): (r: CreateResult)
    ensures r.reply.status in {201, 400}
    ensures r.reply.effects == []
    ensures r.reply.status == 400 <==> !(Truthy(form.title) && Truthy(form.content))
    ensures r.reply.status == 400 ==> r.board == b && r.reply.body == Message(PostFieldsMissing)
    ensures r.reply.status == 201 ==>
              && r.board.nextId == b.nextId + 1
              && |r.board.posts| == |b.posts| + 1
              && r.board.posts[1..] == b.posts
              && r.board.posts[0] == Post(b.nextId, form.title.value, form.content.value, author, createdAt)
              && r.reply.body == Created(r.board.posts[0])
  {
    if !Truthy(form.title) || !Truthy(form.content) then
      CreateResult(b, Reply(400, Message(PostFieldsMissing), []))
    else
      var post := Post(b.nextId, form.title.value, form.content.value, author, createdAt);
      CreateResult(Board([post] + b.posts, b.nextId + 1), Reply(201, Created(post), []))
  }

  /** Creating a post keeps the board well formed; the new post's id is
      larger than every id already on the board. */
  lemma CreatePreservesWellFormed(b: Board, author: UserId, form: PostForm, createdAt: string)
    requires BoardWellFormed(b)
    ensures BoardWellFormed(CreatePost(b, author, form, createdAt).board)
    ensures CreatePost(b, author, form, createdAt).reply.status == 201 ==>
              forall p :: p in b.posts ==> p.id < CreatePost(b, author, form, createdAt).board.posts[0].id
  {
  }

  /** `POST /posts`: the middleware, then the handler. A rejected request
      leaves the board alone; an accepted one keeps the middleware's cookie
      effects on whatever reply the handler gives. */
  function PostRoute(codec: Codec, now: Instant, jar: Jar, users: seq<User>, b: Board, form: PostForm, createdAt: string): (r: CreateResult)
    ensures r.reply.effects == Authenticate(codec, now, jar, users).effects
    ensures r.reply.status == 401 <==> Authenticate(codec, now, jar, users).decision.Unauthorized?
    ensures r.reply.status == 401 ==> r.board == b
    ensures Authenticate(codec, now, jar, users).decision.Unauthorized? ==>
              r.reply.body == Message(Authenticate(codec, now, jar, users).decision.message)
    ensures r.reply.status == 201 ==>
              |r.board.posts| > 0 && Authentic(codec, now, jar, users, r.board.posts[0].authorId)
    ensures Authenticate(codec, now, jar, users).decision.Proceed? ==>
              var h := CreatePost(b, Authenticate(codec, now, jar, users).decision.userId, form, createdAt);
              r.board == h.board && r.reply.status == h.reply.status && r.reply.body == h.reply.body
  {
    var auth := Authenticate(codec, now, jar, users);
    match auth.decision
    case Unauthorized(_) => CreateResult(b, Rejection(auth))
    case Proceed(uid) =>
      var h := CreatePost(b, uid, form, createdAt);
      h.(reply := h.reply.(effects := auth.effects + h.reply.effects))
  }

  /** The preview of a post's content: the content itself when it has at
      most 60 characters, otherwise its first 60 characters and "...". */
  function Preview(content: string): (p: string)
    ensures |p| <= PreviewLimit + |Ellipsis|
    ensures |content| <= PreviewLimit ==> p == content
    ensures |content| > PreviewLimit ==>
              |p| == PreviewLimit + |Ellipsis| && p[..PreviewLimit] == content[..PreviewLimit] && p[PreviewLimit..] == Ellipsis
  {
    if |content| > PreviewLimit then content[..PreviewLimit] + Ellipsis else content
  }

  /** The name shown for a post's author: the account's name, or a fixed
      placeholder when the account is missing or its name is empty. */
  function AuthorName(users: seq<User>, authorId: UserId): (n: string)
    ensures FindById(users, authorId).Some? && FindById(users, authorId).value.name != "" ==>
              n == FindById(users, authorId).value.name
    ensures n == UnknownAuthor || (FindById(users, authorId).Some? && n == FindById(users, authorId).value.name)
    ensures FindById(users, authorId).None? ==> n == UnknownAuthor
    ensures n != ""
  {
    match FindById(users, authorId)
    case Some(u) => if u.name != "" then u.name else UnknownAuthor
    case None => UnknownAuthor
  }

  function Summarize(post: Post, users: seq<User>): Summary {
    Summary(post.id, post.title, Preview(post.content), AuthorName(users, post.authorId), post.createdAt)
  }

  /** `GET /posts`: one summary per post, in board order. */
  function ListPosts(posts: seq<Post>, users: seq<User>): (r: seq<Summary>)
    ensures |r| == |posts|
    ensures forall i :: 0 <= i < |r| ==>
              && r[i].id == posts[i].id
              && r[i].title == posts[i].title
              && r[i].createdAt == posts[i].createdAt
              && r[i].preview == Preview(posts[i].content)
              && r[i].authorName == AuthorName(users, posts[i].authorId)
  {
    seq(|posts|, i requires 0 <= i < |posts| => Summarize(posts[i], users))
  }

  /** The listing of a well-formed board is newest first. */
  lemma ListingNewestFirst(b: Board, users: seq<User>)
    requires BoardWellFormed(b)
    ensures forall i, j :: 0 <= i < j < |b.posts| ==> ListPosts(b.posts, users)[i].id > ListPosts(b.posts, users)[j].id
  {
  }

  /** Listing a board with one more post in front lists that post first,
      then what the rest of the board lists. */
  lemma ListPostsCons(p: Post, ps: seq<Post>, users: seq<User>)
    ensures ListPosts([p] + ps, users) == [Summarize(p, users)] + ListPosts(ps, users)
  {
    var lhs := ListPosts([p] + ps, users);
    var rhs := [Summarize(p, users)] + ListPosts(ps, users);
    forall i | 0 <= i < |lhs|
      ensures lhs[i] == rhs[i]
    {
      if i > 0 {
        assert ([p] + ps)[i] == ps[i - 1];
      }
    }
  }

  /** After a post is created, the listing shows it first, followed by the
      listing as it was before. */
  lemma CreateThenList(b: Board, author: UserId, form: PostForm, createdAt: string, users: seq<User>)
    requires CreatePost(b, author, form, createdAt).reply.status == 201
    ensures ListPosts(CreatePost(b, author, form, createdAt).board.posts, users)
         == [Summarize(CreatePost(b, author, form, createdAt).board.posts[0], users)] + ListPosts(b.posts, users)
  {
    var posts := CreatePost(b, author, form, createdAt).board.posts;
    assert posts == [posts[0]] + b.posts;
    ListPostsCons(posts[0], b.posts, users);
  }

  /** `GET /posts`: no authentication; always 200 with the listing of the
      whole board and no cookie effects. */
  function ListRoute(b: Board, users: seq<User>): (r: Reply)
    ensures r.status == 200 && r.effects == []
    ensures r.body.Listing? && |r.body.summaries| == |b.posts|
    ensures forall i :: 0 <= i < |b.posts| ==> r.body.summaries[i] == Summarize(b.posts[i], users)
  {
    Reply(200, Listing(ListPosts(b.posts, users)), [])
  }
}

=== FILE: protocol.dfy ===
/** Properties of the token protocol across requests: a client applies each
    response's cookie effects to its jar and sends the jar with the next
    request. Each request is judged at its own instant. */
module Protocol {
  import opened Base
  import opened Records
  import opened Tokens
  import opened Cookies
  import opened Users
  import opened Http
  import opened Auth
  import opened Session

  /** After a successful login the client holds a fresh pair for the account;
      while the access token is live the account is served on the fast path
      and no cookie changes. */
  lemma LoginThenFastPath(codec: Codec, t0: Instant, t1: Instant, jar: Jar,
                                             users: seq<User>, form: LoginForm, u: User)
    requires Login(codec, t0, users, form).status == 200
    requires u in users && u.email == form.email.value && u.password == form.password.value
    requires DistinctEmails(users)
    requires codec.sign(Access, u.id, t0) != ""
    requires LiveAt(codec, Access, u.id, t0, t1)
    ensures Apply(jar, Login(codec, t0, users, form).effects)
         == Jar(Some(codec.sign(Access, u.id, t0)), Some(codec.sign(Refresh, u.id, t0)))
    ensures Authenticate(codec, t1, Apply(jar, Login(codec, t0, users, form).effects), users)
         == Outcome(Proceed(u.id), [])
  {
  }

  /** After a silent renewal the refresh cookie is the one the client sent,
      and while the new access token is live the next request takes the fast
      path for the same account, whatever the store then holds. */
  lemma RenewalThenFastPath(codec: Codec, t1: Instant, t2: Instant, jar: Jar, users: seq<User>,
                            later: seq<User>, uid: UserId)
    requires AccessStale(codec, t1, jar) && RefreshAccepted(codec, t1, jar, uid)
    requires FindById(users, uid).Some?
    requires codec.sign(Access, uid, t1) != ""
    requires LiveAt(codec, Access, uid, t1, t2)
    ensures Apply(jar, Authenticate(codec, t1, jar, users).effects).refresh == jar.refresh
    ensures Authenticate(codec, t2, Apply(jar, Authenticate(codec, t1, jar, users).effects), later)
         == Outcome(Proceed(uid), [])
  {
  }

  /** Once the middleware has cleared the cookies, the client's next request
      carries none and is refused with "No token", touching nothing. */
  lemma ClearedSessionStaysOut(codec: Codec, t1: Instant, t2: Instant, jar: Jar, users: seq<User>, later: seq<User>)
    requires Authenticate(codec, t1, jar, users).effects == ClearBoth
    ensures Authenticate(codec, t2, Apply(jar, Authenticate(codec, t1, jar, users).effects), later)
         == Outcome(Unauthorized(NoToken), [])
  {
  }

  /** After logout, whatever the client held, its next request is refused
      with "No token". */
  lemma LogoutForgets(codec: Codec, now: Instant, jar: Jar, users: seq<User>)
    ensures Apply(jar, Logout().effects) == EmptyJar
    ensures Authenticate(codec, now, Apply(jar, Logout().effects), users) == Outcome(Unauthorized(NoToken), [])
  {
  }

  /** A refresh token presented as the access cookie is not accepted when the
      library keeps the two signing domains apart: it is refused outright. */
  lemma SwappedTokenRefused(codec: Codec, issued: Instant, now: Instant, jar: Jar, users: seq<User>, uid: UserId)
    requires jar.access == Some(codec.sign(Refresh, uid, issued)) && codec.sign(Refresh, uid, issued) != ""
    requires codec.verify(Access, codec.sign(Refresh, uid, issued), now) == Invalid
    ensures Authenticate(codec, now, jar, users) == Outcome(Unauthorized(InvalidToken), [])
  {
  }

  /** The seeded account's credentials. */
  const SeedLogin: LoginForm := LoginForm(Some("test@example.com"), Some("qwe123!!"))

  /** The end-to-end session: log in as the seeded account at t0 (200, both
      cookies set); at t1 the access token has expired but the refresh token
      is live, so `/me` answers 200 for the same account and only the access
      cookie is replaced; at t2 both tokens have expired, so `/me` answers 401
      and both cookies are cleared. */
  lemma SessionLifetime(codec: Codec, t0: Instant, t1: Instant, t2: Instant, jar: Jar)
    requires codec.sign(Access, "user-1", t0) != "" && codec.sign(Refresh, "user-1", t0) != ""
    requires codec.sign(Access, "user-1", t1) != ""
    requires ExpiredAt(codec, Access, "user-1", t0, t1) && LiveAt(codec, Refresh, "user-1", t0, t1)
    requires ExpiredAt(codec, Access, "user-1", t1, t2) && ExpiredAt(codec, Refresh, "user-1", t0, t2)
    ensures Login(codec, t0, Seed, SeedLogin) == Reply(200, Ok, SetAuthCookies(codec, "user-1", t0))
    ensures var jar1 := Apply(jar, Login(codec, t0, Seed, SeedLogin).effects);
            && MeRoute(codec, t1, jar1, Seed)
               == Reply(200, Profile(View(Seed[0])), [SetCookie(AccessCookie, codec.sign(Access, "user-1", t1))])
            && var jar2 := Apply(jar1, MeRoute(codec, t1, jar1, Seed).effects);
               && jar2.refresh == jar1.refresh
               && MeRoute(codec, t2, jar2, Seed) == Reply(401, Message(InvalidRefreshToken), ClearBoth)
               && Apply(jar2, MeRoute(codec, t2, jar2, Seed).effects) == EmptyJar
  {
  }
}

=== FILE: records.dfy ===
/** The entities the routes work on: user records, posts, the summaries the
    listing returns, and the JSON request bodies the handlers read. */
module Records {
  import opened Base

  type UserId = string

  /** One entry of the in-memory user array. */
  datatype User = User(id: UserId, email: string, password: string, name: string)

  /** The projection of a user sent back to clients: never the password. */
  datatype UserView = UserView(id: UserId, email: string, name: string)

  function View(u: User): UserView {
    UserView(u.id, u.email, u.name)
  }

  /** One entry of the in-memory post array; `createdAt` is the ISO time
      stamp the handler read from the wall clock. */
  datatype Post = Post(id: nat, title: string, content: string, authorId: UserId, createdAt: string)

  /** One element of the post listing. */
  datatype Summary = Summary(id: nat, title: string, preview: string, authorName: string, createdAt: string)

  /** Request bodies; a field the client did not send is `None`. */
  datatype SignupForm = SignupForm(email: Option<string>, password: Option<string>, name: Option<string>)
  datatype LoginForm = LoginForm(email: Option<string>, password: Option<string>)
  datatype PostForm = PostForm(title: Option<string>, content: Option<string>)
}

=== FILE: session.dfy ===
/** The account and session routes: signup, login, logout and `/me`. Signup
    is the only operation that changes the user array; it and login hand the
    client a fresh token pair, logout takes it away. */
module Session {
  import opened Base
  import opened Records
  import opened Tokens
  import opened Cookies
  import opened Users
  import opened Http
  import opened Auth

  const SignupFieldsMissing: string := "email, password, name 모두 필요합니다."
  const EmailTaken: string := "이미 존재하는 이메일입니다."
  const LoginFieldsMissing: string := "email과 password가 필요합니다."
  const BadCredentials: string := "Invalid credentials"
  const NoSuchUser: string := "User not found"

  /** A handler's reply together with the user array it leaves behind. */
  datatype SignupResult = SignupResult(users: seq<User>, reply: Reply)

  /** `POST /auth/signup`. */
  function Signup(codec: Codec, now: Instant, users: seq<User>, form: SignupForm): (r: SignupResult)
    ensures r.reply.status in {201, 400, 409}
    ensures r.reply.status == 400 <==> !(Truthy(form.email) && Truthy(form.password) && Truthy(form.name))
    ensures r.reply.status == 409 <==> (&& Truthy(form.email) && Truthy(form.password) && Truthy(form.name)
                                        && exists u :: u in users && u.email == form.email.value)
    ensures r.reply.status != 201 ==> r.users == users && r.reply.effects == []
    ensures r.reply.status == 400 ==> r.reply.body == Message(SignupFieldsMissing)
    ensures r.reply.status == 409 ==> r.reply.body == Message(EmailTaken)
    ensures r.reply.status == 201 ==>
              && |r.users| == |users| + 1
              && r.users[..|users|] == users
              && r.users[|users|] == User(IdFor(|users| + 1), form.email.value, form.password.value, form.name.value)
              && r.reply.body == SignedUp(View(r.users[|users|]))
              && r.reply.effects == SetAuthCookies(codec, IdFor(|users| + 1), now)
  {
    if !Truthy(form.email) || !Truthy(form.password) || !Truthy(form.name) then
      SignupResult(users, Reply(400, Message(SignupFieldsMissing), []))
    else if FindByEmail(users, form.email.value).Some? then
      SignupResult(users, Reply(409, Message(EmailTaken), []))
    else
      var user := User(IdFor(|users| + 1), form.email.value, form.password.value, form.name.value);
      SignupResult(users + [user], Reply(201, SignedUp(View(user)), SetAuthCookies(codec, user.id, now)))
  }

  /** `POST /auth/login`. The store is only read. */
  function Login(codec: Codec, now: Instant, users: seq<User>, form: LoginForm): (r: Reply)
    ensures r.status in {200, 400, 401}
    ensures r.status == 400 <==> !(Truthy(form.email) && Truthy(form.password))
    ensures r.status == 200 ==>
              exists u :: u in users && u.email == form.email.value && u.password == form.password.value
                          && r.effects == SetAuthCookies(codec, u.id, now)
    ensures r.status == 200 ==>
              && FindByEmail(users, form.email.value).Some?
              && r.effects == SetAuthCookies(codec, FindByEmail(users, form.email.value).value.id, now)
    ensures r.status != 200 ==> r.effects == []
    ensures r.status == 400 ==> r.body == Message(LoginFieldsMissing)
    ensures r.status == 401 ==> r.body == Message(BadCredentials)
    ensures r.status == 200 ==> r.body == Ok
    ensures r.status == 401 ==>
              || FindByEmail(users, form.email.value).None?
              || FindByEmail(users, form.email.value).value.password != form.password.value
  {
    if !Truthy(form.email) || !Truthy(form.password) then
      Reply(400, Message(LoginFieldsMissing), [])
    else
      match FindByEmail(users, form.email.value)
      case None => Reply(401, Message(BadCredentials), [])
      case Some(u) =>
        if u.password != form.password.value then Reply(401, Message(BadCredentials), [])
        else Reply(200, Ok, SetAuthCookies(codec, u.id, now))
  }

  /** `POST /auth/logout`: always succeeds and clears both cookies. */
  function Logout(): (r: Reply)
    ensures r.status == 200 && r.effects == ClearBoth
    ensures r.body == Ok
  {
    Reply(200, Ok, ClearBoth)
  }

  /** The `/me` handler proper, run once the middleware let `uid` through. */
  function Me(users: seq<User>, uid: UserId): (r: Reply)
    ensures r.effects == []
    ensures r.status == 200 <==> exists u :: u in users && u.id == uid
    ensures r.status != 200 ==> r.status == 404 && r.body == Message(NoSuchUser)
    ensures r.status == 200 ==> r.body == Profile(View(FindById(users, uid).value))
    ensures r.status == 200 ==>
              && r.body.Profile? && r.body.user.id == uid
              && exists u :: u in users && View(u) == r.body.user
  {
    match FindById(users, uid)
    case None => Reply(404, Message(NoSuchUser), [])
    case Some(u) => Reply(200, Profile(View(u)), [])
  }

  /** `GET /me`: the middleware, then the handler; cookie effects the
      middleware made travel with whatever reply is sent. */
  function MeRoute(codec: Codec, now: Instant, jar: Jar, users: seq<User>): (r: Reply)
    ensures r.status == 401 <==> Authenticate(codec, now, jar, users).decision.Unauthorized?
    ensures r.status == 200 ==> exists uid :: Authentic(codec, now, jar, users, uid) && r.body == Me(users, uid).body
    ensures r.effects == Authenticate(codec, now, jar, users).effects
    ensures Authenticate(codec, now, jar, users).decision.Unauthorized? ==>
              r.body == Message(Authenticate(codec, now, jar, users).decision.message)
    ensures Authenticate(codec, now, jar, users).decision.Proceed? ==>
              && r.status == Me(users, Authenticate(codec, now, jar, users).decision.userId).status
              && r.body == Me(users, Authenticate(codec, now, jar, users).decision.userId).body
  {
    var auth := Authenticate(codec, now, jar, users);
    match auth.decision
    case Unauthorized(_) => Rejection(auth)
    case Proceed(uid) =>
      var h := Me(users, uid);
      h.(effects := auth.effects + h.effects)
  }

  // ---------------------------------------------------------------------
  // Properties relating the handlers to each other and to the store.

  /** Signup keeps the user array well formed: ids stay `user-<position+1>`
      and emails stay distinct; the id handed out was not taken before. */
  lemma SignupPreservesWellFormed(codec: Codec, now: Instant, users: seq<User>, form: SignupForm)
    requires WellFormed(users)
    ensures WellFormed(Signup(codec, now, users, form).users)
    ensures Signup(codec, now, users, form).reply.status == 201 ==>
              FindById(users, Signup(codec, now, users, form).users[|users|].id).None?
  {
    var r := Signup(codec, now, users, form);
    if r.reply.status == 201 {
      NextIdFresh(users);
      var n := r.users;
      forall i, j | 0 <= i < j < |n|
        ensures n[i].email != n[j].email
      {
        if j == |users| {
          assert n[i] == users[i];
          assert users[i] in users;
        } else {
          assert n[i] == users[i] && n[j] == users[j];
        }
      }
      forall i | 0 <= i < |n|
        ensures n[i].id == IdFor(i + 1)
      {
        if i < |users| { assert n[i] == users[i]; }
      }
    }
  }

  /** An account just created can log in with the same email and password,
      and receives tokens for the id signup gave it. */
  lemma SignupThenLogin(codec: Codec, t1: Instant, t2: Instant, users: seq<User>, email: string, password: string, name: string)
    requires Signup(codec, t1, users, SignupForm(Some(email), Some(password), Some(name))).reply.status == 201
    ensures Login(codec, t2, Signup(codec, t1, users, SignupForm(Some(email), Some(password), Some(name))).users,
                  LoginForm(Some(email), Some(password)))
         == Reply(200, Ok, SetAuthCookies(codec, IdFor(|users| + 1), t2))
  {
  }

  /** On a well-formed store, login succeeds exactly when some account has
      both the email and the password given. */
  lemma LoginSucceedsIff(codec: Codec, now: Instant, users: seq<User>, email: string, password: string)
    requires DistinctEmails(users)
    requires email != "" && password != ""
    ensures Login(codec, now, users, LoginForm(Some(email), Some(password))).status == 200
        <==> exists i :: 0 <= i < |users| && users[i].email == email && users[i].password == password
  {
  }

  /** A request carrying a token pair that is still live is served `/me` for
      the account the tokens were issued to, and no cookie changes. */
  lemma MeWithLiveAccessToken(codec: Codec, issued: Instant, now: Instant, users: seq<User>, u: User, jar: Jar)
    requires u in users && FindById(users, u.id) == Some(u)
    requires jar.access == Some(codec.sign(Access, u.id, issued)) && codec.sign(Access, u.id, issued) != ""
    requires LiveAt(codec, Access, u.id, issued, now)
    ensures MeRoute(codec, now, jar, users) == Reply(200, Profile(View(u)), [])
  {
  }
}

=== FILE: tokens.dfy ===
/** Signed, time-bound tokens, seen from the outside. Signing and
    verification belong to a JSON Web Token library; the model keeps only
    the three-way answer verification gives, which is the fork the
    authentication middleware branches on. */
module Tokens {
  import opened Records

  /** An encoded token, as carried in a cookie. */
  type Token = string

  /** A point in time; verification depends on it through expiry. */
  type Instant = int

  /** The two signing domains: each has its own secret and lifetime. */
  datatype Domain = Access | Refresh

  /** What verifying a token under a domain at an instant yields: its
      subject, or a failure that tells an expired token apart from any
      other (bad signature, wrong domain, garbage). */
  datatype Verdict = Valid(sub: UserId) | Expired | Invalid

  /** The token library: `sign(d, sub, t)` is the token issued for `sub`
      in domain `d` at time `t`; `verify(d, tok, t)` checks `tok` at `t`. */
  datatype Codec = Codec(sign: (Domain, UserId, Instant) -> Token, verify: (Domain, Token, Instant) -> Verdict)

  /** A token issued at `issued` is still accepted at `now`. */
  predicate LiveAt(codec: Codec, d: Domain, sub: UserId, issued: Instant, now: Instant) {
    codec.verify(d, codec.sign(d, sub, issued), now) == Valid(sub)
  }

  /** A token issued at `issued` has run out by `now`. */
  predicate ExpiredAt(codec: Codec, d: Domain, sub: UserId, issued: Instant, now: Instant) {
    codec.verify(d, codec.sign(d, sub, issued), now) == Expired
  }
}

=== FILE: users.dfy ===
/** The in-memory user array: lookups, the seeded test account, the id a new
    account receives, and the invariant signup keeps. */
module Users {
  import opened Base
  import opened Records
  import opened Decimal

  /** What a lookup in the user array searches by. */
  datatype Key = ById(id: UserId) | ByEmail(email: string) {
    predicate Matches(u: User) {
      match this
      case ById(i) => u.id == i
      case ByEmail(e) => u.email == e
    }
  }

  /** `users.find(...)` with an exact comparison on the key's field. */
  function Find(users: seq<User>, key: Key): (r: Option<User>)
    ensures r.Some? ==> r.value in users && key.Matches(r.value)
    ensures r.Some? ==> exists i :: 0 <= i < |users| && users[i] == r.value
                                    && forall j :: 0 <= j < i ==> !key.Matches(users[j])
    ensures r.None? <==> forall u :: u in users ==> !key.Matches(u)
  {
    match FindFirst(users, (u: User) => key.Matches(u))
    case None => None
    case Some(i) => Some(users[i])
  }

  function FindById(users: seq<User>, id: UserId): Option<User> {
    Find(users, ById(id))
  }

  function FindByEmail(users: seq<User>, email: string): Option<User> {
    Find(users, ByEmail(email))
  }

  /** The id `user-<n>` given to the n-th account. */
  function IdFor(n: nat): UserId {
    "user-" + ToDecimal(n)
  }

  /** The account the server starts with. */
  const Seed: seq<User> := [User("user-1", "test@example.com", "qwe123!!", "테스트 유저")]

  /** The account at position i has id `user-<i+1>`. */
  ghost predicate SequentialIds(users: seq<User>) {
    forall i :: 0 <= i < |users| ==> users[i].id == IdFor(i + 1)
  }

  /** No two accounts share an email. */
  ghost predicate DistinctEmails(users: seq<User>) {
    forall i, j :: 0 <= i < j < |users| ==> users[i].email != users[j].email
  }

  /** What every reachable user array satisfies. */
  ghost predicate WellFormed(users: seq<User>) {
    SequentialIds(users) && DistinctEmails(users)
  }

  lemma SeedWellFormed()
    ensures WellFormed(Seed)
  {
  }

  lemma IdForInjective(a: nat, b: nat)
    requires IdFor(a) == IdFor(b)
    ensures a == b
  {
    assert ToDecimal(a) == IdFor(a)[5..];
    assert ToDecimal(b) == IdFor(b)[5..];
    ToDecimalInjective(a, b);
  }

  /** Sequential ids are pairwise distinct. */
  lemma DistinctIds(users: seq<User>, i: nat, j: nat)
    requires SequentialIds(users)
    requires i < |users| && j < |users| && i != j
    ensures users[i].id != users[j].id
  {
    if users[i].id == users[j].id {
      IdForInjective(i + 1, j + 1);
    }
  }

  /** The id the next account will receive is not taken yet. */
  lemma NextIdFresh(users: seq<User>)
    requires SequentialIds(users)
    ensures FindById(users, IdFor(|users| + 1)).None?
  {
    forall u | u in users
      ensures u.id != IdFor(|users| + 1)
    {
      var i :| 0 <= i < |users| && users[i] == u;
      if u.id == IdFor(|users| + 1) {
        IdForInjective(i + 1, |users| + 1);
      }
    }
  }

  /** With distinct emails, a lookup by email finds the one account that has it. */
  lemma FindByEmailUnique(users: seq<User>, i: nat)
    requires DistinctEmails(users)
    requires i < |users|
    ensures FindByEmail(users, users[i].email) == Some(users[i])
  {
  }
}
